=== FILE: README.md ===
# Portfolio site behaviour layer, modelled in Dafny

This project models the decision logic of the portfolio website's client script, `script.js`. The DOM is replaced by plain values and each handler becomes a pure function over immutable records.

- **Scroll spy** (`ScrollSpy`). Picks the navigation section that is current for a scroll position:
  - the threshold is `scrollY + navHeight + 50`;
  - the contact element takes over 30% of a viewport height early;
  - otherwise a reverse scan over the other `section[id]` elements picks the section;
  - within 50 px of the top nothing is current.

  The spy then marks exactly the links whose `data-section` equals the result.
- **Scroll target** (`ScrollTarget`). The offset that `scrollToElement` scrolls to. Also where the browser lands once `window.scrollTo` clamps that offset to the scrollable range, and when the spy then selects the target.
- **Mobile menu** (`MobileMenu`). Covers:
  - opening and closing on the pair (`aria-expanded`, `show` class);
  - the listeners that call them (toggle click, Enter/Space on the toggle, a menu link, a click outside, Escape);
  - the Tab/Shift+Tab wrap-around inside the open menu.
- **Transition coordinator** (`Transitions`, `TransitionTraces`). This fakes a slide animation across two full page loads. One document's state is a `Doc`, made of:
  - the session store's three keys `transitionDirection`, `customNavigation` and `transitionTimestamp`;
  - the flags `isTransitioning` and `isProcessingQueue`;
  - the FIFO transition queue;
  - an abstract `<main>`, meaning its inline transform, opacity and visibility plus its class set;
  - the root's `--initial-*` properties;
  - the pending timers and the navigations already made.

  Every listener and every timer is a step (`Step`), and a trace is a sequence of steps (`Run`). Time is an explicit `now` argument. Each `setTimeout` is a pending record that a `TimerFires(k, now)` event fires. The order is chosen by the trace, so the trace lemmas hold for every firing order, not only the real deadlines. Reduced motion is a boolean. Both `initPageTransitions` and `handlePageEntrance` return early on it, and `Doc.listening` records that.

Modelling choices:
- `scrollY` is a `real`, as it is in the browser, so a computed scroll target can be fed back to the spy exactly. `offsetTop`, `offsetHeight` and `innerHeight` are integers.
- `0.3 · innerHeight` is exact real arithmetic.
- The spy and the scroll target each declare their own 0.3 constant, as the program does (`ContactLeadFraction`, `ContactExtraFraction`). The consistency lemma therefore checks that they agree.
- `document.querySelector('#contact')` is a separate `Option<int>` argument, because the program looks it up apart from the `section[id]` list.
- Timestamps are `Option<int>`.

## Model

| member | source | states |
|---|---|---|
| ScrollSpy.LastPassed | script.js:564-582 | The reverse scan finds the last non-contact section in document order whose top the threshold has reached, or reports that there is none. |
| ScrollSpy.SelectSection | script.js:532-588 | Below scrollY 50 the result is "", whatever the layout. If a contact element exists and the threshold reaches `contactTop − 0.3·innerHeight`, the result is "contact". Otherwise it is the id of the last passed non-contact section, or "" when none is passed. |
| ScrollSpy.UpdateActiveNavOnScroll | script.js:532-615 | The loop version (contact first, reverse scan with `continue`/`break`, top-of-page reset) computes the same section as `SelectSection`. Afterwards a link is `active` with `aria-current="page"` exactly when its `data-section` equals that non-empty section, all other links are cleared, and all active links share one section. |
| ScrollSpy.LastSectionWhenAllPassed | script.js:564-582 | Past the top-of-page band (scrollY at least 50), with no contact element, once the threshold reaches the last section (a non-contact one), the spy selects it. |
| ScrollSpy.SelectedSectionWasPassed | script.js:573-578 | Any selected section other than contact is a section whose top the threshold has reached. |
| ScrollTarget.ScrollToElement | script.js:480-508 | The scroll is smooth exactly when reduced motion is off. The offset requested for an ordinary element puts its top `navHeight + 8` below the top of the viewport, before the browser clamps it (see `Landed`). Contact is requested a further `0.3·innerHeight` lower. An unmeasurable navigation bar counts as 88 px. |
| ScrollTarget.ContactTargetSelectsContact | script.js:487-491 | The requested contact offset is clamped to the scrollable range 0 .. `maxScroll`, and the landing point must be at least 50. With the same navigation bar and viewport, the spy then selects "contact" if and only if `maxScroll >= target − 42`. So the promise in the code comment holds whenever the page can scroll to within 42 px of the target, and fails otherwise. |
| ScrollTarget.SectionTargetSelectsSection | script.js:492-495 | Scrolling to an ordinary section selects that section. This holds provided the target is at least 50 px down the page, the page can scroll as far as the target, no later section starts within the 42 px margin, and the contact trigger lies beyond that margin. |
| MobileMenu.Toggle | script.js:419-435 | The toggle flips what it reads. The menu reads as open only when `aria-expanded` is exactly "true". The `show` class is flipped on its own. Focus moves to the first link exactly when the menu was read as closed and a link exists. A consistent menu stays consistent. |
| MobileMenu.Close | script.js:437-445 | With both controls present the result is always `aria-expanded="false"` and no `show` class. With a control missing it does nothing. |
| MobileMenu.CloseIsIdempotent | script.js:437-445 | Closing twice is the same as closing once. |
| MobileMenu.ToggleTwiceRestores | script.js:419-425 | Two toggles restore the menu exactly when `aria-expanded` was "true" or "false". |
| MobileMenu.ToggleThenCloseIsClosed | script.js:419-445 | Closing after any toggle leaves the menu closed. |
| MobileMenu.Dispatch | script.js:394-416 | Escape, a click outside both controls, or a click on a menu link closes the menu. A toggle click, or Enter/Space on the toggle (the keyboard listener at script.js:651-656), gives exactly the toggled menu, so both `aria-expanded` and `show` flip. A click elsewhere in the menu changes nothing. So does any other key, including Tab, or Enter/Space away from the toggle. With a control missing nothing is registered. |
| MobileMenu.DispatchKeepsConsistent | script.js:394-445 | Starting from a consistent menu, every sequence of menu events keeps `aria-expanded` and `show` in agreement. |
| MobileMenu.MenuKeyDown | script.js:659-704 | Only Tab is handled. Shift+Tab on the first focusable moves focus to the last, and Tab on the last moves it to the first. In every other case focus stays where it is and the default is not prevented. |
| MobileMenu.FocusIsTrapped | script.js:685-704 | This assumes the browser's Tab order is exactly the `a, button, [tabindex]` list that script.js:687 collects. Under that assumption, Tab together with the browser's own move cycles forward (`(i+1) mod n`) and Shift+Tab cycles backward, so focus never leaves the menu. |
| Transitions.EnsurePageVisible | script.js:60-71 | `<main>` is at the visible baseline and carries no transition class. Its other classes are kept. The `--initial-*` properties are gone. Nothing else changes. |
| Transitions.EnsurePageVisibleIsIdempotent | script.js:60-71 | Forcing visibility twice equals forcing it once. |
| Transitions.EnsurePageVisibleFixesVisible | script.js:60-71 | A page already at the baseline is left unchanged. |
| Transitions.InitPageTransitions | script.js:37-57 | With reduced motion nothing is attached and the store is untouched. Otherwise the store is emptied exactly when its timestamp is older than 2000 ms. The coordinator starts idle. |
| Transitions.PlayExitAnimation | script.js:261-275 | Adds `page-transitioning` and the exit class, and schedules the navigation to the target. The store, the flags, the queue and the inline styles are left alone. |
| Transitions.RunThunk | script.js:96-109 | A queued thunk sets `isTransitioning` and writes direction, `customNavigation="true"` and `timestamp=now`. It adds `slide-out-to-left` for `to-case-study` or `slide-out-to-right` for `to-home`. An entrance accepts the recorded intent for exactly the next 2000 ms. |
| Transitions.ProcessQueue | script.js:74-89 | Nothing starts while the gate is closed or the queue is empty. Otherwise the oldest thunk runs, it leaves the queue (FIFO), and a gate release is scheduled after the navigation. |
| Transitions.HandleTransition | script.js:92-112 | With the gate closed the thunk only joins the back of the queue. With an empty queue and an open gate it runs at once. |
| Transitions.OnLinkClick | script.js:114-133 | A click is cancelled and handled only if it is trusted and no transition is under way. A back-home control also needs the click not already cancelled. An unhandled click changes nothing. A handled click records the intent and starts the exit at once. |
| Transitions.ClickDuringTransitionIsNotIntercepted | script.js:118-128 | During a transition a click changes nothing and is not cancelled. |
| Transitions.GateReleased | script.js:85-88 | The gate re-opens, and a waiting thunk, if any, starts now. |
| Transitions.ExitNavigates | script.js:272-274 | The exit timer performs the navigation to the link's target and nothing else. |
| Transitions.EntranceEnds | script.js:311-328 | The entrance timer removes `page-transitioning` and its slide-in class and clears the inline styles. Nothing else changes. |
| Transitions.Reset | script.js:136-165 | Empties the queue, clears both flags and the three keys, and forces the page visible. |
| Transitions.OnPopState | script.js:136-149 | Back/forward always resets while the listeners are attached. |
| Transitions.OnPageShow | script.js:152-165 | Only a `persisted` (cache-restored) page is reset. |
| Transitions.OnVisibilityChange | script.js:168-183 | On becoming visible with a timestamp older than 1000 ms, the page is forced visible and the intent is dropped. Otherwise nothing changes. |
| Transitions.OnLoad | script.js:246-258 | Clears flags and queue. Unless `customNavigation` is "true", it also forces the page visible and drops the intent. |
| Transitions.HandlePageEntrance | script.js:277-347 | `page-transitioning` ends up on `<main>` exactly when the intent is valid. `to-case-study` adds exactly `page-transitioning` and `slide-in-from-right`, and `to-home` exactly `page-transitioning` and `slide-in-from-left`. Each gets an end timer, and the inline styles and other classes stay as they were. An unknown direction adds only `page-transitioning`. An invalid intent gives the visible baseline. The store is always emptied. With reduced motion nothing happens. |
| Transitions.EntranceDecision | script.js:279-347 | For a fresh document the entrance runs iff the direction is present and non-empty, `customNavigation == "true"`, and the timestamp is absent or at most 2000 ms old (the stale cleanup never changes that). `<main>` gains exactly `page-transitioning` plus the direction's slide-in class, and nothing else about it changes. Without the animation the page is visible. All three keys are removed when reduced motion is off, and the store is untouched when it is on. |
| Transitions.UnknownDirectionKeepsPageTransitioning | script.js:306-329 | A valid intent with an unknown direction adds `page-transitioning` with no slide class and no timer, so no timer removes it. Only a failsafe such as `load` does. |
| Transitions.LoadAfterEntranceForcesVisible | script.js:246-258 | After any entrance the `load` event forces the page visible, which cuts short a running entrance. |
| TransitionTraces.StepKeepsQueueIdle | script.js:74-133 | No event leaves a thunk waiting in the queue, and the gate is only closed during a transition. |
| TransitionTraces.QueueStaysIdle | script.js:74-112 | Over every trace the queue stays empty between events, so every handled click's thunk runs immediately. |
| TransitionTraces.FreshDocumentQueueIsIdle | script.js:43-47 | A freshly loaded document starts with an empty queue and an open gate. |
| TransitionTraces.StepStartsAtMostOneExit | script.js:116-133 | One non-reset event starts at most one exit animation, and none during a transition. |
| TransitionTraces.BurstStartsAtMostOneExit | script.js:116-133 | However many clicks arrive, interleaved with timers and visibility changes, at most one exit animation starts before the next lifecycle reset. |
| TransitionTraces.BrowserNavigationEndsVisible | script.js:136-165 | With reduced motion off (the listeners attached), after any trace, `popstate` or a cache-restoring `pageshow` leaves the page visible with no intent, nothing queued and no transition under way. |
| TransitionTraces.OnBeforeUnload | script.js:186-191 | As written, leaving the page removes all three keys whenever the listeners are attached. |
| TransitionTraces.ClickIntentErasedOnLeave | script.js:186-191 | As written, the intent a click records never reaches the next document, which plays no entrance however soon it loads. |
| TransitionTraces.OnBeforeUnloadKeepingIntent | script.js:186-191 | Corrected: the intent is kept while a custom transition is under way, and cleared otherwise. |
| TransitionTraces.ClickIntentSurvivesLeave | script.js:96-102 | With the corrected listener, a handled click followed by the next document loading within 2000 ms starts the matching entrance (the next `load` event may cut it short, see `Transitions.LoadAfterEntranceForcesVisible`): from the right for case-study links, from the left for back-home links. |

## Left out

- ScrollSpy.UpdateActiveNavOnScroll: assumes section ids need no CSS escaping. The program finds the links to mark with the selector `.nav-link[data-section="<id>"]` (script.js:605). An id containing `"` makes `querySelectorAll` throw, so every link stays cleared. On the first call (script.js:630) the exception also aborts the rest of the `DOMContentLoaded` handler. An id containing `\` is read as a CSS escape and matches no link. The model marks the links whose `data-section` equals the id, whatever characters it holds.
- ScrollTarget.ContactTargetSelectsContact: `maxScroll` (the document's `scrollHeight − innerHeight`) is a parameter, not computed from a layout. Sub-pixel rounding of the landing offset is not modelled.
- ScrollTarget.SectionTargetSelectsSection: covers only a target inside the scrollable range. For a section near the bottom of the page the browser stops short, and the spy may then select an earlier section. A section within `navHeight + 58` px of the top of the page is never selected by scrolling to it, because its target is below 50 and the spy reports no section there.
- MobileMenu.FocusIsTrapped: assumes that every element in the `a, button, [tabindex]` list is in the browser's Tab order. If the last one has `tabindex="-1"`, or is disabled or hidden, Tab on the real last element leaves the menu, and the model does not cover that case.
- The startup visibility check (lines 5-23), the `MutationObserver` failsafe (202-243) and the 500 ms post-entrance failsafe (350-365). They depend on the browser's resolved CSS (`getComputedStyle`).
- The `beforeunload` listener's animation cancelling (192-198): `getAnimations` and inline `transition`. Only its store clearing is modelled.
- Real timer deadlines, the 5 ms scroll debounce (621-627) and the resize debounce (753-771). Timers fire in any order the trace chooses.
- `window.location` itself, `focus`/`blur`, `console` logging and the global error listener (724-726). These are browser side effects. A navigation is recorded as the URL assigned.
- `matchMedia` and `handleMotionPreferences` (729-750). Reduced motion is a boolean argument.
- `preserveScrollPosition`/`restoreScrollPosition` (707-721). Nothing calls them.
- The case-study card keydown handler (670-682), which does nothing.
- `initNavigation`, `updateActiveNavItem`, `scrollToTop` and `initSmoothScrolling` (369-385, 448-478, 510-521, 633-644). They lie outside the modelled core. `updateActiveNavItem` marks the clicked link itself, and the next scroll-spy run overrides that. `scrollToTop` is a standalone scroll to 0.
- `initScrollSpy`'s early return when the navigation bar, sections or links are missing (525-530). It only decides whether listeners are attached.
- `parseInt` of a malformed timestamp (NaN). Timestamps are `Option<int>`.
- IEEE floating point. `0.3·innerHeight` and `scrollY` are exact reals, and a browser rounding the scroll offset is not modelled.
- A missing `<main>`. The entrance and exit paths would throw, so every `Doc` has one.
- A toggle button without a menu panel. `toggleMobileMenu` would throw after setting `aria-expanded`, so the menu's controls are modelled as both present or both absent.
- `initPageTransitions` and `handlePageEntrance` read `Date.now()` separately. The model uses one `now` for both.
- TransitionTraces.BurstStartsAtMostOneExit: this counts exit animations, not navigations. A click that arrives during a transition is not cancelled (`ClickDuringTransitionIsNotIntercepted`), so the browser follows that link by itself. The program therefore does not guarantee exactly one navigation per burst of clicks.

## Findings

| source | as written | input that shows it | evidently intended | confidence | as-written member | corrected member |
|---|---|---|---|---|---|---|
| script.js:186-191 | `beforeunload` removes `transitionDirection`, `customNavigation` and `transitionTimestamp` on every departure. That includes the `window.location.href` assignment the exit animation makes 250 ms after an intercepted click. | Click a case-study link at time t. The thunk records the intent, the exit timer navigates, and `beforeunload` empties the store. The next page loads at t+300 and finds no intent, so `handlePageEntrance` takes the no-animation path. | The intent of a transition under way survives to the next document, which consumes it. Stale expiry still discards late ones. | medium, not executed | TransitionTraces.ClickIntentErasedOnLeave | TransitionTraces.ClickIntentSurvivesLeave |

=== FILE: mobile_menu.dfy ===
/**
 The mobile navigation menu: opening and closing it (`toggleMobileMenu`,
 `closeMobileMenu`), the listeners that call them, and the Tab/Shift+Tab wrap-around
 that keeps keyboard focus inside the open menu (`handleMobileMenuTabbing`).
 The menu is the pair (`aria-expanded` attribute of the toggle, `show` class of the
 panel); the focusable elements of the panel are numbered 0 .. n-1 in document order.
 */
module MobileMenu {
  import opened Wrappers

  /** The two words `aria-expanded` takes. */
  const AriaTrue := "true"
  const AriaFalse := "false"

  /** `aria-expanded` of the toggle button (absent, or any string) and the panel's `show` class. */
  datatype Menu = Menu(ariaExpanded: Option<string>, show: bool)

  /** The toggle reads the menu as open only when the attribute is exactly "true". */
  predicate IsExpanded(m: Menu) {
    m.ariaExpanded == Some(AriaTrue)
  }

  /** The attribute and the class agree and the attribute is one of the two words. */
  predicate Consistent(m: Menu) {
    || (m.ariaExpanded == Some(AriaTrue) && m.show)
    || (m.ariaExpanded == Some(AriaFalse) && !m.show)
  }

  predicate IsClosed(m: Menu) {
    m.ariaExpanded == Some(AriaFalse) && !m.show
  }

  /** The menu after a toggle, and whether focus then moves to the panel's first link. */
  datatype Toggled = Toggled(menu: Menu, focusFirstLink: bool)

  /** `toggleMobileMenu`: flips the attribute from what it reads, flips the class on its own,
      and focuses the first link (when there is one) when the menu was read as closed. */
  function Toggle(m: Menu, hasFirstLink: bool): (r: Toggled)
    ensures IsExpanded(r.menu) <==> !IsExpanded(m)
    ensures r.menu.ariaExpanded.Some? && r.menu.ariaExpanded.value in {AriaTrue, AriaFalse}
    ensures r.menu.show <==> !m.show
    ensures r.focusFirstLink <==> !IsExpanded(m) && hasFirstLink
    // a consistent menu stays consistent; an inconsistent one stays inconsistent
    ensures Consistent(r.menu) <==> (m.show <==> IsExpanded(m))
  {
    var wasExpanded := IsExpanded(m);
    Toggled(Menu(Some(if wasExpanded then AriaFalse else AriaTrue), !m.show), !wasExpanded && hasFirstLink)
  }

  /** `closeMobileMenu`: does nothing when the toggle or the panel is missing (`None`). */
  function Close(controls: Option<Menu>): (r: Option<Menu>)
    ensures r.Some? <==> controls.Some?
    ensures r.Some? ==> IsClosed(r.value) && Consistent(r.value)
  {
    match controls
    case None => None
    case Some(_) => Some(Menu(Some(AriaFalse), false))
  }

  lemma CloseIsIdempotent(controls: Option<Menu>)
    ensures Close(Close(controls)) == Close(controls)
  {
  }

  /** Two toggles give back the starting menu exactly when the attribute was one of the two words. */
  lemma ToggleTwiceRestores(m: Menu, hasFirstLink: bool)
    ensures Toggle(Toggle(m, hasFirstLink).menu, hasFirstLink).menu == m
            <==> m.ariaExpanded == Some(AriaTrue) || m.ariaExpanded == Some(AriaFalse)
  {
  }

  /** Closing after any toggle always leaves the menu closed. */
  lemma ToggleThenCloseIsClosed(m: Menu, hasFirstLink: bool)
    ensures Close(Some(Toggle(m, hasFirstLink).menu)) == Some(Menu(Some(AriaFalse), false))
  {
  }

  /** Where a click lands, relative to the menu's controls. */
  datatype ClickTarget = OnToggle | OnMenuLink | ElsewhereInMenu | Outside

  /** The events the menu listens to; a key press also records whether it was on the toggle. */
  datatype MenuEvent = Click(target: ClickTarget) | KeyDown(key: string, onToggle: bool)

  /**
   The listeners registered by `initMobileMenu` and, for the toggle's keyboard
   activation, `initKeyboardNavigation`, applied in bubbling order: the target's own
   listener, then the document's. With either control missing none is registered.
   */
  function Dispatch(controls: Option<Menu>, e: MenuEvent, hasFirstLink: bool): (r: Option<Menu>)
    ensures controls.None? ==> r.None?
    ensures controls.Some? ==> r.Some?
    // Escape and a click outside both controls always close the menu
    ensures controls.Some? && (e == Click(Outside) || (e.KeyDown? && e.key == "Escape")) ==> IsClosed(r.value)
    ensures controls.Some? && e == Click(OnMenuLink) ==> IsClosed(r.value)
    // clicking the toggle, or Enter/Space on it, opens a closed menu and closes an open one
    ensures controls.Some? && (e == Click(OnToggle) || (e.KeyDown? && e.onToggle && e.key in {"Enter", " "})) ==>
              (IsExpanded(r.value) <==> !IsExpanded(controls.value))
    // ... and flips the `show` class too: the result is exactly the toggled menu
    ensures controls.Some? && (e == Click(OnToggle) || (e.KeyDown? && e.onToggle && e.key in {"Enter", " "})) ==>
              r.value.show == !controls.value.show && r == Some(Toggle(controls.value, hasFirstLink).menu)
    // a click elsewhere in the menu, and every other key, change nothing
    ensures controls.Some? && e == Click(ElsewhereInMenu) ==> r == controls
    ensures controls.Some? && e.KeyDown? && e.key != "Escape" && !(e.onToggle && e.key in {"Enter", " "}) ==>
              r == controls
  {
    match controls
    case None => None
    case Some(m) =>
      match e
      case Click(OnToggle) => Some(Toggle(m, hasFirstLink).menu)
      case Click(OnMenuLink) => Close(controls)
      case Click(ElsewhereInMenu) => controls
      case Click(Outside) => Close(controls)
      case KeyDown(key, onToggle) =>
        var afterToggle := if onToggle && (key == "Enter" || key == " ") then Some(Toggle(m, hasFirstLink).menu) else controls;
        if key == "Escape" then Close(afterToggle) else afterToggle
  }

  /** A menu that starts consistent stays consistent under every menu event. */
  lemma {:induction false} DispatchKeepsConsistent(controls: Option<Menu>, events: seq<MenuEvent>, hasFirstLink: bool)
    requires controls.Some? && Consistent(controls.value)
    ensures var r := DispatchAll(controls, events, hasFirstLink); r.Some? && Consistent(r.value)
    decreases |events|
  {
    if |events| > 0 {
      var next := Dispatch(controls, events[0], hasFirstLink);
      assert next.Some? && Consistent(next.value);
      DispatchKeepsConsistent(next, events[1..], hasFirstLink);
    }
  }

  function DispatchAll(controls: Option<Menu>, events: seq<MenuEvent>, hasFirstLink: bool): Option<Menu>
    decreases |events|
  {
    if |events| == 0 then controls
    else DispatchAll(Dispatch(controls, events[0], hasFirstLink), events[1..], hasFirstLink)
  }

  // ---------------------------------------------------------------------------
  // Focus trap

  /** What the Tab handler does: the index it moves focus to (if it does) and whether it
      cancels the browser's own focus move. */
  datatype TabOutcome = TabOutcome(moveTo: Option<nat>, preventDefault: bool)

  /**
   A key press inside the menu panel, with `n` focusable elements and `active` the
   index of the focused one among them (none when focus is elsewhere). Only Tab is
   handled: Shift+Tab on the first wraps to the last, Tab on the last wraps to the first.
   */
  function MenuKeyDown(key: string, shift: bool, n: nat, active: Option<nat>): (r: TabOutcome)
    requires active.Some? ==> active.value < n
    ensures r.preventDefault <==> key == "Tab" && active.Some? &&
                                  (if shift then active.value == 0 else active.value == n - 1)
    ensures r.preventDefault ==> r.moveTo == Some(if shift then n - 1 else 0)
    ensures !r.preventDefault ==> r.moveTo.None?
  {
    if key != "Tab" || n == 0 then TabOutcome(None, false)
    else if shift then
      if active == Some(0) then TabOutcome(Some(n - 1), true) else TabOutcome(None, false)
    else
      if active == Some(n - 1) then TabOutcome(Some(0), true) else TabOutcome(None, false)
  }

  /** The focused index after the key press, assuming the browser's own Tab order
      visits the panel's focusables consecutively in document order. */
  function FocusAfterTab(shift: bool, n: nat, i: nat): int
    requires i < n
  {
    var outcome := MenuKeyDown("Tab", shift, n, Some(i));
    if outcome.preventDefault then outcome.moveTo.value
    else if shift then i - 1 else i + 1
  }

  /** Inside the open menu Tab cycles forward and Shift+Tab backward: focus never leaves it,
      provided the browser's Tab order is exactly the `a, button, [tabindex]` list (no element
      of it has a negative tabindex, is disabled or is hidden). */
  lemma FocusIsTrapped(shift: bool, n: nat, i: nat)
    requires i < n
    ensures 0 <= FocusAfterTab(shift, n, i) < n
    ensures !shift ==> FocusAfterTab(shift, n, i) == (i + 1) % n
    ensures shift ==> FocusAfterTab(shift, n, i) == (i + n - 1) % n
  {
  }
}

=== FILE: scroll_spy.dfy ===
/**
 Scroll spy: which navigation section is "current" for a scroll position, and how
 the navigation links are marked after each recomputation (`updateActiveNavOnScroll`).
 The DOM is replaced by plain values: the scroll offset, the measured height of the
 main navigation bar (absent when there is no `.main-nav`), the viewport height, the
 top of the `#contact` element (absent when there is none) and the `section[id]`
 elements in document order.
 */
module ScrollSpy {
  import opened Wrappers

  /** Height used when the navigation bar cannot be measured. */
  const FallbackNavHeight: nat := 88
  /** Padding added below the navigation bar when computing the scroll threshold. */
  const ThresholdPadding: nat := 50
  /** Below this scroll offset the page counts as "at the top" and nothing is current. */
  const TopOfPage: real := 50.0
  /** The contact section becomes current this fraction of a viewport before its top. */
  const ContactLeadFraction: real := 0.3
  const ContactId := "contact"
  const AriaCurrentPage := "page"

  datatype Viewport = Viewport(scrollY: real, navMeasured: Option<nat>, innerHeight: nat)

  /** A `section[id]` element: its id and its `offsetTop`. */
  datatype Section = Section(id: string, top: int)

  /** A `.nav-link[data-section]` element: its target section, whether it carries the
      `active` class, and its `aria-current` attribute. */
  datatype NavLink = NavLink(dataSection: string, active: bool, ariaCurrent: Option<string>)

  function NavHeight(measured: Option<nat>): nat {
    measured.GetOr(FallbackNavHeight)
  }

  /** The document position the spy compares section tops against. */
  function Threshold(v: Viewport): real {
    v.scrollY + (NavHeight(v.navMeasured) + ThresholdPadding) as real
  }

  /** The point above the contact element's top at which contact takes over. */
  function ContactTrigger(contactTop: int, innerHeight: nat): real {
    contactTop as real - ContactLeadFraction * innerHeight as real
  }

  /** The special case: a contact element exists and the threshold has reached its trigger. */
  predicate ContactWins(v: Viewport, contactTop: Option<int>) {
    contactTop.Some? && Threshold(v) >= ContactTrigger(contactTop.value, v.innerHeight)
  }

  /** A non-contact section whose top the threshold has reached. */
  predicate Passed(s: Section, threshold: real) {
    s.id != ContactId && s.top as real <= threshold
  }

  /** Index `i` is the last passed section in document order. */
  predicate IsLastPassed(sections: seq<Section>, threshold: real, i: int) {
    && 0 <= i < |sections|
    && Passed(sections[i], threshold)
    && forall j | i < j < |sections| :: !Passed(sections[j], threshold)
  }

  predicate NonePassed(sections: seq<Section>, threshold: real) {
    forall j | 0 <= j < |sections| :: !Passed(sections[j], threshold)
  }

  /** At most one index is the last passed section. */
  lemma LastPassedIsUnique(sections: seq<Section>, threshold: real, a: int, b: int)
    requires IsLastPassed(sections, threshold, a) && IsLastPassed(sections, threshold, b)
    ensures a == b
  {
  }

  /** The reverse scan over the non-contact sections, as a recursion over prefixes. */
  function LastPassed(sections: seq<Section>, threshold: real): (r: Option<nat>)
    ensures r.Some? ==> IsLastPassed(sections, threshold, r.value)
    ensures r.None? ==> NonePassed(sections, threshold)
    decreases |sections|
  {
    if |sections| == 0 then None
    else if Passed(sections[|sections| - 1], threshold) then Some(|sections| - 1)
    else LastPassed(sections[..|sections| - 1], threshold)
  }

  /** The section id the spy selects, or "" for none. */
  function SelectSection(v: Viewport, contactTop: Option<int>, sections: seq<Section>): (r: string)
    // near the top of the page nothing is current, whatever the layout
    ensures v.scrollY < TopOfPage ==> r == ""
    // contact takes precedence once the threshold reaches its early trigger
    ensures v.scrollY >= TopOfPage && ContactWins(v, contactTop) ==> r == ContactId
    // otherwise: the last passed non-contact section, or none
    ensures v.scrollY >= TopOfPage && !ContactWins(v, contactTop) ==>
              (exists i :: IsLastPassed(sections, Threshold(v), i) && r == sections[i].id)
              || (NonePassed(sections, Threshold(v)) && r == "")
  {
    if v.scrollY < TopOfPage then ""
    else if ContactWins(v, contactTop) then ContactId
    else match LastPassed(sections, Threshold(v))
      case Some(i) => sections[i].id
      case None => ""
  }

  /** The link state after an update that selected `current`. */
  predicate MarkedFor(before: NavLink, after: NavLink, current: string) {
    && after.dataSection == before.dataSection
    && (after.active <==> current != "" && before.dataSection == current)
    && after.ariaCurrent == (if after.active then Some(AriaCurrentPage) else None)
  }

  /**
   The body of `updateActiveNavOnScroll`: the contact special case, the reverse scan
   with early exit, the top-of-page reset, then clearing every link and marking the
   links of the selected section.
   */
  method UpdateActiveNavOnScroll(v: Viewport, contactTop: Option<int>, sections: seq<Section>, links: seq<NavLink>)
    returns (current: string, updated: seq<NavLink>)
    ensures current == SelectSection(v, contactTop, sections)
    ensures |updated| == |links|
    ensures forall k | 0 <= k < |links| :: MarkedFor(links[k], updated[k], current)
    // every active link points at the same section
    ensures forall a, b | 0 <= a < |updated| && 0 <= b < |updated| && updated[a].active && updated[b].active ::
              updated[a].dataSection == updated[b].dataSection
  {
    var threshold := Threshold(v);
    current := "";
    if contactTop.Some? {
      if threshold >= ContactTrigger(contactTop.value, v.innerHeight) {
        current := ContactId;
      }
    }
    if current == "" {
      var i := |sections|;
      while i > 0
        invariant 0 <= i <= |sections|
        invariant current == ""
        invariant forall j | i <= j < |sections| :: !Passed(sections[j], threshold)
        decreases i
      {
        i := i - 1;
        if sections[i].id == ContactId {
          continue;
        }
        if threshold >= sections[i].top as real {
          current := sections[i].id;
          assert IsLastPassed(sections, threshold, i);
          break;
        }
      }
    }
    if v.scrollY < TopOfPage {
      current := "";
    }

    // clear every link first
    var cleared: seq<NavLink> := [];
    var k := 0;
    while k < |links|
      invariant 0 <= k <= |links|
      invariant |cleared| == k
      invariant forall j | 0 <= j < k :: cleared[j] == NavLink(links[j].dataSection, false, None)
    {
      cleared := cleared + [NavLink(links[k].dataSection, false, None)];
      k := k + 1;
    }

    // then mark the links of the current section
    updated := cleared;
    if current != "" {
      k := 0;
      while k < |cleared|
        invariant 0 <= k <= |cleared|
        invariant |updated| == |cleared|
        invariant forall j | 0 <= j < k :: MarkedFor(links[j], updated[j], current)
        invariant forall j | k <= j < |cleared| :: updated[j] == cleared[j]
      {
        if cleared[k].dataSection == current {
          updated := updated[k := NavLink(current, true, Some(AriaCurrentPage))];
        }
        k := k + 1;
      }
    }
  }

  /** Past the top-of-page band (scrollY at least 50), with no contact element, once the
      threshold reaches the last section (a non-contact one) the spy selects it. */
  lemma LastSectionWhenAllPassed(v: Viewport, sections: seq<Section>)
    requires v.scrollY >= TopOfPage
    requires |sections| > 0 && sections[|sections| - 1].id != ContactId
    requires sections[|sections| - 1].top as real <= Threshold(v)
    ensures SelectSection(v, None, sections) == sections[|sections| - 1].id
  {
    assert IsLastPassed(sections, Threshold(v), |sections| - 1);
  }

  /** The selected section, when it is not contact, is a section that the threshold has passed. */
  lemma SelectedSectionWasPassed(v: Viewport, contactTop: Option<int>, sections: seq<Section>)
    requires SelectSection(v, contactTop, sections) != ""
    requires SelectSection(v, contactTop, sections) != ContactId
    ensures exists i :: 0 <= i < |sections| && sections[i].id == SelectSection(v, contactTop, sections)
                        && sections[i].top as real <= Threshold(v)
  {
    var th := Threshold(v);
    var r := SelectSection(v, contactTop, sections);
    assert v.scrollY >= TopOfPage && !ContactWins(v, contactTop);
    var i :| IsLastPassed(sections, th, i) && r == sections[i].id;
    assert sections[i].top as real <= th;
  }
}

=== FILE: scroll_target.dfy ===
/**
 Smooth scrolling to an in-page element (`scrollToElement`): the scroll offset that
 puts the element just below the fixed navigation bar, with the contact element
 pulled up by a fraction of the viewport so that the scroll spy selects it, and the
 scroll behaviour chosen from the reduced-motion preference.
 */
module ScrollTarget {
  import opened Wrappers
  import opened ScrollSpy

  /** Gap left between the bottom of the navigation bar and the element's top. */
  const NavGap: nat := 8
  /** Extra upward offset for the contact element, as a fraction of the viewport height.
      Declared separately from the scroll spy's own fraction, as in the program. */
  const ContactExtraFraction: real := 0.3

  /** A `window.scrollTo` request: the target offset and whether it is animated. */
  datatype ScrollRequest = ScrollRequest(top: real, smooth: bool)

  /** The offset `scrollToElement` requests for an element with this id and `offsetTop`
      (before the browser clamps it to the scrollable range, see `Landed`). */
  function ScrollToElement(navMeasured: Option<nat>, innerHeight: nat, reducedMotion: bool, id: string, offsetTop: int)
    : (r: ScrollRequest)
    ensures r.smooth <==> !reducedMotion
    // the requested offset puts the element's top NavGap below the bottom of the navigation bar ...
    ensures id != ContactId ==>
              offsetTop as real - r.top == (NavHeight(navMeasured) + NavGap) as real
    // ... except contact, which is requested a further 30% of the viewport lower
    ensures id == ContactId ==>
              offsetTop as real - r.top
              == (NavHeight(navMeasured) + NavGap) as real + ContactExtraFraction * innerHeight as real
    // an unmeasurable navigation bar counts as 88 pixels high
    ensures navMeasured.None? && id != ContactId ==> r.top == (offsetTop - 88 - NavGap) as real
  {
    var navHeight := NavHeight(navMeasured);
    var top :=
      if id == ContactId then (offsetTop - navHeight - NavGap) as real - innerHeight as real * ContactExtraFraction
      else (offsetTop - navHeight - NavGap) as real;
    ScrollRequest(top, !reducedMotion)
  }

  /** Where the browser actually lands for a requested offset: `window.scrollTo` clamps
      to the scrollable range 0 .. `maxScroll` (`scrollHeight - innerHeight`). */
  function Landed(top: real, maxScroll: nat): (y: real)
    ensures 0.0 <= y <= maxScroll as real
    ensures 0.0 <= top <= maxScroll as real ==> y == top
    ensures top > maxScroll as real ==> y == maxScroll as real
  {
    if top < 0.0 then 0.0 else if top > maxScroll as real then maxScroll as real else top
  }

  /**
   Scrolling to the contact element lands where the scroll spy selects contact exactly
   when the page can scroll to within ThresholdPadding - NavGap (42) pixels of the
   requested target: with the same navigation bar and viewport, once past the top-of-page
   band, the spy chooses "contact" if and only if `maxScroll >= target - 42`. In particular
   it does whenever the target itself is reachable.
   */
  lemma ContactTargetSelectsContact(navMeasured: Option<nat>, innerHeight: nat, reducedMotion: bool,
                                    contactTop: int, sections: seq<Section>, maxScroll: nat)
    requires Landed(ScrollToElement(navMeasured, innerHeight, reducedMotion, ContactId, contactTop).top, maxScroll) >= TopOfPage
    ensures var target := ScrollToElement(navMeasured, innerHeight, reducedMotion, ContactId, contactTop).top;
            var y := Landed(target, maxScroll);
            SelectSection(Viewport(y, navMeasured, innerHeight), Some(contactTop), sections) == ContactId
            <==> maxScroll as real >= target - (ThresholdPadding - NavGap) as real
  {
    var target := ScrollToElement(navMeasured, innerHeight, reducedMotion, ContactId, contactTop).top;
    var y := Landed(target, maxScroll);
    var v := Viewport(y, navMeasured, innerHeight);
    // the contact trigger sits NavHeight + NavGap below the requested target
    assert ContactTrigger(contactTop, innerHeight) == target + (NavHeight(navMeasured) + NavGap) as real;
    assert ContactWins(v, Some(contactTop)) <==> maxScroll as real >= target - (ThresholdPadding - NavGap) as real;
    var r := SelectSection(v, Some(contactTop), sections);
    if !ContactWins(v, Some(contactTop)) {
      // the spy's other answers are a passed non-contact section or none
      if r != "" {
        var i :| IsLastPassed(sections, Threshold(v), i) && r == sections[i].id;
      }
    }
  }

  /**
   Scrolling to an ordinary section selects that section, provided the target is at
   least 50 pixels down the page (above that the spy reports no section), no later
   section begins within the 42-pixel margin between the threshold padding and the
   navigation gap, the contact trigger lies beyond that margin too, and the page can
   scroll as far as the target (otherwise the browser stops short of it).
   */
  lemma SectionTargetSelectsSection(navMeasured: Option<nat>, innerHeight: nat, reducedMotion: bool,
                                    contactTop: Option<int>, sections: seq<Section>, i: int, maxScroll: nat)
    requires 0 <= i < |sections| && sections[i].id != ContactId
    requires ScrollToElement(navMeasured, innerHeight, reducedMotion, sections[i].id, sections[i].top).top >= TopOfPage
    requires ScrollToElement(navMeasured, innerHeight, reducedMotion, sections[i].id, sections[i].top).top <= maxScroll as real
    requires contactTop.Some? ==>
               ContactTrigger(contactTop.value, innerHeight) > (sections[i].top + ThresholdPadding - NavGap) as real
    requires forall j | i < j < |sections| ::
               sections[j].id == ContactId || sections[j].top > sections[i].top + ThresholdPadding - NavGap
    ensures var target := ScrollToElement(navMeasured, innerHeight, reducedMotion, sections[i].id, sections[i].top).top;
            SelectSection(Viewport(Landed(target, maxScroll), navMeasured, innerHeight), contactTop, sections)
            == sections[i].id
  {
    var target := ScrollToElement(navMeasured, innerHeight, reducedMotion, sections[i].id, sections[i].top).top;
    var v := Viewport(Landed(target, maxScroll), navMeasured, innerHeight);
    var th := Threshold(v);
    assert th == (sections[i].top + ThresholdPadding - NavGap) as real;
    assert IsLastPassed(sections, th, i);
    var r := SelectSection(v, contactTop, sections);
    assert !NonePassed(sections, th) by { assert Passed(sections[i], th); }
    var k :| IsLastPassed(sections, th, k) && r == sections[k].id;
    LastPassedIsUnique(sections, th, i, k);
  }
}

=== FILE: transition_traces.dfy ===
/**
 The coordinator as an event-driven state machine over one document: every listener
 and every timer is a step, a trace is a sequence of steps. Proved over all traces:
 the transition queue never holds a waiting thunk, a burst of clicks starts at most
 one exit animation, and browser navigation always ends fully visible. Across two
 documents: what the next page sees of the intent a click recorded.
 */
module TransitionTraces {
  import opened Wrappers
  import opened Transitions

  datatype Event =
    | Click(click: LinkClick, now: int)
    | TimerFires(k: nat, now: int)
    | Load
    | PopState
    | PageShow(persisted: bool)
    | VisibilityChange(hidden: bool, now: int)

  function Step(d: Doc, e: Event): Doc {
    match e
    case Click(c, now) => OnLinkClick(d, c, now).doc
    case TimerFires(k, now) => Tick(d, k, now)
    case Load => OnLoad(d)
    case PopState => OnPopState(d)
    case PageShow(persisted) => OnPageShow(d, persisted)
    case VisibilityChange(hidden, now) => OnVisibilityChange(d, hidden, now)
  }

  function Run(d: Doc, events: seq<Event>): Doc
    decreases |events|
  {
    if |events| == 0 then d else Run(Step(d, events[0]), events[1..])
  }

  /** Events that clear the coordinator's flags: the browser-lifecycle resets. */
  predicate IsReset(e: Event) {
    e.Load? || e.PopState? || (e.PageShow? && e.persisted)
  }

  // ---------------------------------------------------------------------------
  // The queue never holds a waiting thunk

  lemma StepKeepsQueueIdle(d: Doc, e: Event)
    requires QueueIdle(d)
    ensures QueueIdle(Step(d, e))
  {
  }

  /** Every document starts with an idle queue, and every trace keeps it idle: each
      accepted click runs its thunk immediately, never after another one. */
  lemma {:induction false} QueueStaysIdle(d: Doc, events: seq<Event>)
    requires QueueIdle(d)
    ensures QueueIdle(Run(d, events))
    decreases |events|
  {
    if |events| > 0 {
      StepKeepsQueueIdle(d, events[0]);
      QueueStaysIdle(Step(d, events[0]), events[1..]);
    }
  }

  lemma FreshDocumentQueueIsIdle(store: Store, reducedMotion: bool, now: int, main: Main, rootVars: set<string>)
    ensures QueueIdle(LoadDocument(store, reducedMotion, now, main, rootVars))
  {
  }

  // ---------------------------------------------------------------------------
  // At most one exit animation per burst of clicks

  function CountNavigate(ts: seq<Timer>): nat
    decreases |ts|
  {
    if |ts| == 0 then 0 else (if ts[0].Navigate? then 1 else 0) + CountNavigate(ts[1..])
  }

  lemma {:induction false} CountNavigateAppend(a: seq<Timer>, b: seq<Timer>)
    ensures CountNavigate(a + b) == CountNavigate(a) + CountNavigate(b)
    decreases |a|
  {
    if |a| > 0 {
      assert (a + b)[1..] == a[1..] + b;
      CountNavigateAppend(a[1..], b);
    } else {
      assert a + b == b;
    }
  }

  lemma CountNavigateRemove(ts: seq<Timer>, k: nat)
    requires k < |ts|
    ensures CountNavigate(RemoveAt(ts, k)) + (if ts[k].Navigate? then 1 else 0) == CountNavigate(ts)
  {
    var tail := ts[k..];
    assert ts == ts[..k] + tail;
    CountNavigateAppend(ts[..k], tail);
    assert tail[0] == ts[k] && tail[1..] == ts[k + 1..];
    assert CountNavigate(tail) == (if ts[k].Navigate? then 1 else 0) + CountNavigate(ts[k + 1..]);
    CountNavigateAppend(ts[..k], ts[k + 1..]);
  }

  /** Exit animations started in this document: each schedules exactly one navigation,
      which is either still pending or has happened. */
  function ExitsStarted(d: Doc): nat {
    CountNavigate(d.timers) + |d.navigations|
  }

  lemma StepStartsAtMostOneExit(d: Doc, e: Event)
    requires QueueIdle(d) && !IsReset(e)
    ensures d.isTransitioning ==> Step(d, e).isTransitioning && ExitsStarted(Step(d, e)) == ExitsStarted(d)
    ensures ExitsStarted(Step(d, e)) <= ExitsStarted(d) + 1
    ensures ExitsStarted(Step(d, e)) > ExitsStarted(d) ==> Step(d, e).isTransitioning
  {
    match e
    case Click(c, now) =>
      if Intercepts(d, c) {
        var added := [Navigate(ClickTarget(c)), QueueGate];
        assert added[1..] == [QueueGate] && [QueueGate][1..] == [];
        assert CountNavigate(added) == 1;
        CountNavigateAppend(d.timers, added);
      }
    case TimerFires(k, now) =>
      if k < |d.timers| {
        CountNavigateRemove(d.timers, k);
      }
    case _ =>
  }

  /**
   However many clicks arrive, interleaved with timers and visibility changes, at most
   one exit animation starts until a browser-lifecycle reset: none at all once a
   transition is under way.
   */
  lemma {:induction false} BurstStartsAtMostOneExit(d: Doc, events: seq<Event>)
    requires QueueIdle(d)
    requires forall i | 0 <= i < |events| :: !IsReset(events[i])
    ensures ExitsStarted(Run(d, events)) <= ExitsStarted(d) + 1
    ensures d.isTransitioning ==> ExitsStarted(Run(d, events)) == ExitsStarted(d)
    decreases |events|
  {
    if |events| > 0 {
      var next := Step(d, events[0]);
      StepStartsAtMostOneExit(d, events[0]);
      StepKeepsQueueIdle(d, events[0]);
      BurstStartsAtMostOneExit(next, events[1..]);
    }
  }

  // ---------------------------------------------------------------------------
  // Browser navigation is never animated

  /** With reduced motion off (the coordinator's listeners attached), whatever happened
      before, back/forward or a cache restore ends with the page fully visible, no
      transition class, no intent, and nothing queued. */
  lemma BrowserNavigationEndsVisible(d: Doc, events: seq<Event>, last: Event)
    requires d.listening
    requires last.PopState? || last == PageShow(true)
    ensures var r := Step(Run(d, events), last);
            Visible(r.main) && r.store == EmptyStore && r.queue == [] && !r.isTransitioning
  {
    RunKeepsListening(d, events);
  }

  lemma {:induction false} RunKeepsListening(d: Doc, events: seq<Event>)
    ensures Run(d, events).listening == d.listening
    decreases |events|
  {
    if |events| > 0 {
      RunKeepsListening(Step(d, events[0]), events[1..]);
    }
  }

  // ---------------------------------------------------------------------------
  // Leaving the page

  /** The `beforeunload` listener's effect on the store, as written: it removes all three
      keys whenever the document is left, including for the navigation an intercepted
      click starts. (Its cancelling of running animations is not modelled.) */
  function OnBeforeUnload(d: Doc): (r: Doc)
    ensures d.listening ==> r.store == EmptyStore
    ensures !d.listening ==> r == d
  {
    if d.listening then d.(store := EmptyStore) else d
  }

  /** As written, the intent a click records never reaches the next document: however soon
      it loads, it plays no entrance animation. */
  lemma ClickIntentErasedOnLeave(d: Doc, c: LinkClick, t: int, t': int, main: Main, rootVars: set<string>)
    requires QueueIdle(d) && Intercepts(d, c)
    ensures var clicked := OnLinkClick(d, c, t).doc;
            && clicked.store == Intent(ClickDirection(c), t)
            && PageTransitioning !in LoadDocument(OnBeforeUnload(clicked).store, false, t', main, rootVars).main.classes
  {
  }

  /** The corrected listener: keep an intent that belongs to a transition under way, so that
      the next document can consume it (stale expiry still discards it if it is late). */
  function OnBeforeUnloadKeepingIntent(d: Doc): (r: Doc)
    ensures d.listening && !(d.isTransitioning && d.store.customNavigation == Some(CustomFlag)) ==>
              r.store == EmptyStore
    ensures d.listening && d.isTransitioning && d.store.customNavigation == Some(CustomFlag) ==> r == d
    ensures !d.listening ==> r == d
  {
    if d.listening && !(d.isTransitioning && d.store.customNavigation == Some(CustomFlag)) then
      d.(store := EmptyStore)
    else d
  }

  /** Following a navigation out of `d`: leave it, then load the next document at `now`
      with the store the tab carries over. */
  function FollowNavigation(d: Doc, reducedMotion: bool, now: int, main: Main, rootVars: set<string>): Doc {
    LoadDocument(OnBeforeUnloadKeepingIntent(d).store, reducedMotion, now, main, rootVars)
  }

  /**
   With the corrected listener, an intercepted click at time `t` followed by the next
   document loading within 2000 ms starts the entrance matching the click: a case-study
   link slides the next page in from the right, a back-home link from the left. The next
   `load` event may still cut it short (see `Transitions.LoadAfterEntranceForcesVisible`).
   */
  lemma ClickIntentSurvivesLeave(d: Doc, c: LinkClick, t: int, t': int, main: Main, rootVars: set<string>)
    requires QueueIdle(d) && Intercepts(d, c)
    requires t' - t <= StaleAfter
    ensures var next := FollowNavigation(OnLinkClick(d, c, t).doc, false, t', main, rootVars);
            && PageTransitioning in next.main.classes
            && (c.caseStudyLink ==> SlideInFromRight in next.main.classes)
            && (!c.caseStudyLink ==> SlideInFromLeft in next.main.classes)
            && next.store == EmptyStore
  {
    var clicked := OnLinkClick(d, c, t).doc;
    var carried := OnBeforeUnloadKeepingIntent(clicked).store;
    assert carried == Intent(ClickDirection(c), t);
    EntranceDecision(carried, false, t', main, rootVars);
  }
}

=== FILE: transitions.dfy ===
/**
 The page-transition coordinator (`initPageTransitions`, `playExitAnimation`,
 `handlePageEntrance`): a slide animation faked across two full page loads.
 A click on an outbound link records a Transition Intent in the tab's session store
 and plays an exit animation before navigating; the next document reads the intent
 and plays the matching entrance animation, unless the intent is missing, not marked
 as a custom navigation, or stale. Browser navigation, cache restores and regained
 visibility force the page back to its visible baseline.

 One document instance is a `Doc`: the session store as this document sees it, the
 closure-local flags and queue, the abstract `<main>` element, the `--initial-*`
 custom properties on the root element, and the timers it has scheduled. Time is an
 explicit parameter; every timer is an explicit event (see TransitionTraces).
 */
module Transitions {
  import opened Wrappers

  // Session-store values and time limits.
  const ToCaseStudy := "to-case-study"
  const ToHome := "to-home"
  const CustomFlag := "true"
  /** An intent older than this many milliseconds is stale. */
  const StaleAfter: int := 2000
  /** On regaining visibility, an intent older than this is taken as a stuck transition. */
  const StuckAfter: int := 1000

  // Classes on `<main>`.
  const PageTransitioning := "page-transitioning"
  const SlideInFromRight := "slide-in-from-right"
  const SlideInFromLeft := "slide-in-from-left"
  const SlideOutToLeft := "slide-out-to-left"
  const SlideOutToRight := "slide-out-to-right"
  const TransitionClasses: set<string> :=
    {PageTransitioning, SlideInFromRight, SlideInFromLeft, SlideOutToLeft, SlideOutToRight}

  /** Custom properties an early inline script may put on the root element. */
  const InitialVars: set<string> := {"--initial-transform", "--initial-opacity", "--initial-visibility"}

  /** Fallback navigation target of a back-home control without an `href`. */
  const HomeUrl := "index.html"

  /** The three session-store keys of a Transition Intent: `transitionDirection`,
      `customNavigation`, `transitionTimestamp` (an absent key is `None`). */
  datatype Store = Store(direction: Option<string>, customNavigation: Option<string>, timestamp: Option<int>)

  const EmptyStore := Store(None, None, None)

  /** Inline `transform`, `opacity`, `visibility` of `<main>`, and its class list. */
  datatype Main = Main(transform: string, opacity: string, visibility: string, classes: set<string>)

  /** The two directions a click can record. */
  datatype Direction = CaseStudy | Home

  function DirectionName(d: Direction): string {
    match d
    case CaseStudy => ToCaseStudy
    case Home => ToHome
  }

  /** The exit animation a direction plays. */
  function ExitClass(d: Direction): string {
    match d
    case CaseStudy => SlideOutToLeft
    case Home => SlideOutToRight
  }

  /** A queued transition: the closure `handleTransition` pushes. */
  datatype Thunk = Thunk(direction: Direction, targetUrl: string)

  /** A pending `setTimeout`: the queue gate, the exit's navigation, or the end of an entrance. */
  datatype Timer = QueueGate | Navigate(url: string) | EntranceEnd(slideClass: string)

  datatype Doc = Doc(
    listening: bool,          // reduced motion off: the coordinator's listeners are attached
    store: Store,
    isTransitioning: bool,
    isProcessingQueue: bool,
    queue: seq<Thunk>,
    main: Main,
    rootVars: set<string>,
    timers: seq<Timer>,
    navigations: seq<string>  // URLs assigned to `window.location.href`, oldest first
  )

  /** The fully visible, untransformed baseline that every failsafe restores. */
  predicate Visible(m: Main) {
    && m.transform == "translateX(0)"
    && m.opacity == "1"
    && m.visibility == "visible"
    && m.classes !! TransitionClasses
  }

  /** The intent a click records at time `now`. */
  function Intent(d: Direction, now: int): Store {
    Store(Some(DirectionName(d)), Some(CustomFlag), Some(now))
  }

  predicate IsStale(s: Store, now: int) {
    s.timestamp.Some? && now - s.timestamp.value > StaleAfter
  }

  /** What `handlePageEntrance` accepts as a transition to animate: a non-empty direction,
      the custom-navigation flag, and a timestamp that is absent or not stale. */
  predicate IntentIsValid(s: Store, now: int) {
    && s.direction.Some? && s.direction.value != ""
    && s.customNavigation == Some(CustomFlag)
    && !IsStale(s, now)
  }

  // ---------------------------------------------------------------------------
  // The failsafe

  /** `ensurePageVisible`: force `<main>` to the visible baseline, drop every transition
      class and the root's `--initial-*` properties; nothing else changes. */
  function EnsurePageVisible(d: Doc): (r: Doc)
    ensures Visible(r.main)
    ensures forall c :: c in r.main.classes <==> c in d.main.classes && c !in TransitionClasses
    ensures r.rootVars !! InitialVars && r.rootVars <= d.rootVars
    ensures r.(main := d.main, rootVars := d.rootVars) == d
  {
    d.(main := Main("translateX(0)", "1", "visible", d.main.classes - TransitionClasses),
       rootVars := d.rootVars - InitialVars)
  }

  lemma EnsurePageVisibleIsIdempotent(d: Doc)
    ensures EnsurePageVisible(EnsurePageVisible(d)) == EnsurePageVisible(d)
  {
  }

  /** A document already at the baseline, without the custom properties, is a fixed point. */
  lemma EnsurePageVisibleFixesVisible(d: Doc)
    requires Visible(d.main) && d.rootVars !! InitialVars
    ensures EnsurePageVisible(d) == d
  {
    assert d.main.classes - TransitionClasses == d.main.classes;
    assert d.rootVars - InitialVars == d.rootVars;
  }

  // ---------------------------------------------------------------------------
  // Initialisation

  /** `initPageTransitions` up to its listeners: with reduced motion nothing is attached and
      the store is left alone; otherwise a stale intent is removed from the store. */
  function InitPageTransitions(store: Store, reducedMotion: bool, now: int, main: Main, rootVars: set<string>)
    : (r: Doc)
    ensures r.listening <==> !reducedMotion
    ensures !r.isTransitioning && !r.isProcessingQueue && r.queue == [] && r.timers == [] && r.navigations == []
    ensures r.main == main && r.rootVars == rootVars
    ensures reducedMotion || !IsStale(store, now) ==> r.store == store
    ensures !reducedMotion && IsStale(store, now) ==> r.store == EmptyStore
  {
    var cleaned := if !reducedMotion && IsStale(store, now) then EmptyStore else store;
    Doc(!reducedMotion, cleaned, false, false, [], main, rootVars, [], [])
  }

  // ---------------------------------------------------------------------------
  // Clicks, the queue and the exit animation

  /** `playExitAnimation`: add the transition classes and schedule the navigation. */
  function PlayExitAnimation(d: Doc, animationClass: string, targetUrl: string): (r: Doc)
    ensures PageTransitioning in r.main.classes && animationClass in r.main.classes
    ensures r.main.classes == d.main.classes + {PageTransitioning, animationClass}
    ensures r.timers == d.timers + [Navigate(targetUrl)]
    // the store, the flags, the queue and the inline styles are left alone
    ensures r == d.(main := r.main, timers := r.timers)
    ensures r.main == d.main.(classes := r.main.classes)
  {
    d.(main := d.main.(classes := d.main.classes + {PageTransitioning, animationClass}),
       timers := d.timers + [Navigate(targetUrl)])
  }

  /** Running a queued thunk: mark the transition, record the intent, play the exit. */
  function RunThunk(d: Doc, t: Thunk, now: int): (r: Doc)
    ensures r.isTransitioning
    ensures r.store == Intent(t.direction, now)
    // the recorded intent is one an entrance accepts for the next 2000 ms, and no longer
    ensures forall later :: IntentIsValid(r.store, later) <==> later - now <= StaleAfter
    ensures r.main.classes == d.main.classes + {PageTransitioning, ExitClass(t.direction)}
    ensures r.timers == d.timers + [Navigate(t.targetUrl)]
  {
    var marked := d.(isTransitioning := true, store := Intent(t.direction, now));
    PlayExitAnimation(marked, ExitClass(t.direction), t.targetUrl)
  }

  /**
   `processTransitionQueue`: when the gate is open and a thunk waits, close the gate,
   run the oldest thunk, and schedule the gate's release. No thunk starts while the
   gate is closed, and thunks leave the queue in the order they entered it.
   */
  function ProcessQueue(d: Doc, now: int): (r: Doc)
    ensures d.isProcessingQueue || d.queue == [] ==> r == d
    ensures !d.isProcessingQueue && d.queue != [] ==>
              && r.isProcessingQueue
              && r.queue == d.queue[1..]
              && r.isTransitioning
              && r.store == Intent(d.queue[0].direction, now)
              && r.main.classes == d.main.classes + {PageTransitioning, ExitClass(d.queue[0].direction)}
              && r.timers == d.timers + [Navigate(d.queue[0].targetUrl), QueueGate]
  {
    if d.isProcessingQueue || d.queue == [] then d
    else
      var next := d.queue[0];
      var ran := RunThunk(d.(isProcessingQueue := true, queue := d.queue[1..]), next, now);
      ran.(timers := ran.timers + [QueueGate])
  }

  /** `handleTransition` after `preventDefault`: enqueue, then process the queue. */
  function HandleTransition(d: Doc, direction: Direction, targetUrl: string, now: int): (r: Doc)
    ensures d.isProcessingQueue ==> r == d.(queue := d.queue + [Thunk(direction, targetUrl)])
    // with an empty queue and an open gate, this click's thunk runs at once
    ensures !d.isProcessingQueue && d.queue == [] ==>
              r == RunThunk(d.(isProcessingQueue := true), Thunk(direction, targetUrl), now)
                     .(timers := d.timers + [Navigate(targetUrl), QueueGate])
  {
    ProcessQueue(d.(queue := d.queue + [Thunk(direction, targetUrl)]), now)
  }

  /** A click on a link: which intercepting selectors it matches, whether the browser
      marked it trusted, whether an earlier listener already cancelled it, and its `href`
      ("" when the element has none). */
  datatype LinkClick = LinkClick(caseStudyLink: bool, backHomeLink: bool, trusted: bool,
                                 defaultPrevented: bool, href: string)

  /** The document after the click's listeners, and whether the click's default is cancelled. */
  datatype ClickOutcome = ClickOutcome(doc: Doc, defaultPrevented: bool)

  function BackHomeTarget(href: string): string {
    if href == "" then HomeUrl else href
  }

  /** The listeners for `a[href*="case-study"]`, attached first. */
  function CaseStudyListener(d: Doc, c: LinkClick, now: int): ClickOutcome {
    if d.listening && c.caseStudyLink && c.trusted && !d.isTransitioning then
      ClickOutcome(HandleTransition(d, CaseStudy, c.href, now), true)
    else ClickOutcome(d, c.defaultPrevented)
  }

  /** The listeners for `a[href*="index.html"]` and `.back-home`, attached second. */
  function BackHomeListener(o: ClickOutcome, c: LinkClick, now: int): ClickOutcome {
    if o.doc.listening && c.backHomeLink && c.trusted && !o.doc.isTransitioning && !o.defaultPrevented then
      ClickOutcome(HandleTransition(o.doc, Home, BackHomeTarget(c.href), now), true)
    else o
  }

  /** A click is intercepted when it is trusted, no transition is under way, and either it
      hits a case-study link or it hits a back-home control and is not already cancelled. */
  predicate Intercepts(d: Doc, c: LinkClick) {
    && d.listening && c.trusted && !d.isTransitioning
    && (c.caseStudyLink || (c.backHomeLink && !c.defaultPrevented))
  }

  /** The direction an intercepted click records: case-study wins when a link matches both. */
  function ClickDirection(c: LinkClick): Direction {
    if c.caseStudyLink then CaseStudy else Home
  }

  function ClickTarget(c: LinkClick): string {
    if c.caseStudyLink then c.href else BackHomeTarget(c.href)
  }

  /** A queue that never holds a waiting thunk between events, and a gate that is only
      closed during a transition. */
  predicate QueueIdle(d: Doc) {
    d.queue == [] && (d.isProcessingQueue ==> d.isTransitioning)
  }

  /** Both click listeners, in the order they were attached. */
  function OnLinkClick(d: Doc, c: LinkClick, now: int): (r: ClickOutcome)
    ensures r.defaultPrevented <==> c.defaultPrevented || Intercepts(d, c)
    ensures !Intercepts(d, c) ==> r.doc == d
    // an intercepted click runs its thunk at once: intent recorded, exit started
    ensures Intercepts(d, c) && QueueIdle(d) ==>
              && r.doc.isTransitioning && r.doc.isProcessingQueue && r.doc.queue == []
              && r.doc.store == Intent(ClickDirection(c), now)
              && r.doc.main.classes == d.main.classes + {PageTransitioning, ExitClass(ClickDirection(c))}
              && r.doc.timers == d.timers + [Navigate(ClickTarget(c)), QueueGate]
  {
    BackHomeListener(CaseStudyListener(d, c, now), c, now)
  }

  /** A click that arrives while a transition is under way changes nothing and is not
      cancelled, so the browser follows the link on its own. */
  lemma ClickDuringTransitionIsNotIntercepted(d: Doc, c: LinkClick, now: int)
    requires d.isTransitioning
    ensures OnLinkClick(d, c, now) == ClickOutcome(d, c.defaultPrevented)
  {
  }

  // ---------------------------------------------------------------------------
  // Timers

  function RemoveAt(ts: seq<Timer>, k: nat): seq<Timer>
    requires k < |ts|
  {
    ts[..k] + ts[k + 1..]
  }

  /** The queue gate's timer (300 ms after a thunk ran): re-open the gate and process the
      queue again, so a waiting thunk starts only now. */
  function GateReleased(d: Doc, now: int): (r: Doc)
    ensures d.queue == [] ==> r == d.(isProcessingQueue := false)
    ensures d.queue != [] ==>
              && r.isProcessingQueue && r.queue == d.queue[1..]
              && r.store == Intent(d.queue[0].direction, now)
              && r.timers == d.timers + [Navigate(d.queue[0].targetUrl), QueueGate]
  {
    ProcessQueue(d.(isProcessingQueue := false), now)
  }

  /** The exit animation's timer (250 ms): the document navigates to the link's target. */
  function ExitNavigates(d: Doc, url: string): (r: Doc)
    ensures r.navigations == d.navigations + [url]
    ensures r == d.(navigations := r.navigations)
  {
    d.(navigations := d.navigations + [url])
  }

  /** The entrance's timer (300 ms): its two classes go, and the inline styles are reset so
      the stylesheet's values apply again. */
  function EntranceEnds(d: Doc, slideClass: string): (r: Doc)
    ensures PageTransitioning !in r.main.classes && slideClass !in r.main.classes
    ensures forall c :: c in r.main.classes <==> c in d.main.classes && c != PageTransitioning && c != slideClass
    ensures r.main.transform == "" && r.main.opacity == "" && r.main.visibility == ""
    ensures r == d.(main := r.main)
  {
    d.(main := Main("", "", "", d.main.classes - {PageTransitioning, slideClass}))
  }

  /** The `k`-th pending timer fires at time `now`; with no such timer nothing happens. */
  function Tick(d: Doc, k: nat, now: int): Doc {
    if k >= |d.timers| then d
    else
      var rest := d.(timers := RemoveAt(d.timers, k));
      match d.timers[k]
      case QueueGate => GateReleased(rest, now)
      case Navigate(url) => ExitNavigates(rest, url)
      case EntranceEnd(cls) => EntranceEnds(rest, cls)
  }

  // ---------------------------------------------------------------------------
  // Browser lifecycle

  /** Cancel queued work, clear both flags and the intent, and force the page visible:
      what `popstate` and a cache-restoring `pageshow` do. */
  function Reset(d: Doc): (r: Doc)
    ensures Visible(r.main) && r.rootVars !! InitialVars
    ensures r.store == EmptyStore
    ensures r.queue == [] && !r.isTransitioning && !r.isProcessingQueue
    ensures r.timers == d.timers && r.navigations == d.navigations && r.listening == d.listening
  {
    EnsurePageVisible(d.(queue := [], isProcessingQueue := false, isTransitioning := false, store := EmptyStore))
  }

  /** `popstate`: browser back/forward is never animated, whatever the store says. */
  function OnPopState(d: Doc): (r: Doc)
    ensures d.listening ==> r == Reset(d)
    ensures !d.listening ==> r == d
  {
    if d.listening then Reset(d) else d
  }

  /** `pageshow`: only a page restored from the back/forward cache is reset. */
  function OnPageShow(d: Doc, persisted: bool): (r: Doc)
    ensures d.listening && persisted ==> r == Reset(d)
    ensures !(d.listening && persisted) ==> r == d
  {
    if d.listening && persisted then Reset(d) else d
  }

  /** `visibilitychange`: when the page becomes visible and the recorded intent is older
      than a second, the transition is taken as stuck and undone. */
  function OnVisibilityChange(d: Doc, hidden: bool, now: int): (r: Doc)
    ensures d.listening && !hidden && d.store.timestamp.Some? && now - d.store.timestamp.value > StuckAfter ==>
              Visible(r.main) && r.store == EmptyStore
    ensures !(d.listening && !hidden && d.store.timestamp.Some? && now - d.store.timestamp.value > StuckAfter) ==>
              r == d
    ensures r.isTransitioning == d.isTransitioning && r.queue == d.queue && r.timers == d.timers
  {
    if d.listening && !hidden && d.store.timestamp.Some? && now - d.store.timestamp.value > StuckAfter then
      EnsurePageVisible(d).(store := EmptyStore)
    else d
  }

  /** `load`: clear the flags and the queue; unless the store carries the custom-navigation
      flag, force the page visible and drop the intent. */
  function OnLoad(d: Doc): (r: Doc)
    ensures d.listening ==> !r.isTransitioning && !r.isProcessingQueue && r.queue == []
    ensures d.listening && d.store.customNavigation != Some(CustomFlag) ==>
              Visible(r.main) && r.store == EmptyStore
    ensures d.listening && d.store.customNavigation == Some(CustomFlag) ==>
              r.store == d.store && r.main == d.main
    ensures !d.listening ==> r == d
  {
    if !d.listening then d
    else
      var reset := d.(isTransitioning := false, queue := [], isProcessingQueue := false);
      if reset.store.customNavigation != Some(CustomFlag) then EnsurePageVisible(reset).(store := EmptyStore)
      else reset
  }

  // ---------------------------------------------------------------------------
  // The entrance

  /**
   `handlePageEntrance`. With reduced motion it does nothing. Otherwise it always empties
   the store; a valid intent starts the entrance (`page-transitioning` plus the slide-in
   class of a known direction, and a timer to end it), anything else forces the page
   visible at once. A valid intent with an unknown direction adds `page-transitioning`
   with no slide-in class and no timer to remove it.
   */
  function HandlePageEntrance(d: Doc, now: int): (r: Doc)
    ensures !d.listening ==> r == d
    ensures d.listening ==> r.store == EmptyStore
    ensures d.listening ==> (PageTransitioning in r.main.classes <==> IntentIsValid(d.store, now))
    ensures d.listening && !IntentIsValid(d.store, now) ==> Visible(r.main) && r.timers == d.timers
    ensures d.listening && IntentIsValid(d.store, now) && d.store.direction.value == ToCaseStudy ==>
              r.main == d.main.(classes := d.main.classes + {PageTransitioning, SlideInFromRight})
              && r.timers == d.timers + [EntranceEnd(SlideInFromRight)]
    ensures d.listening && IntentIsValid(d.store, now) && d.store.direction.value == ToHome ==>
              r.main == d.main.(classes := d.main.classes + {PageTransitioning, SlideInFromLeft})
              && r.timers == d.timers + [EntranceEnd(SlideInFromLeft)]
    ensures d.listening && IntentIsValid(d.store, now) && d.store.direction.value !in {ToCaseStudy, ToHome} ==>
              r.main == d.main.(classes := d.main.classes + {PageTransitioning}) && r.timers == d.timers
    ensures d.listening ==> r.rootVars !! InitialVars
    ensures r.isTransitioning == d.isTransitioning && r.queue == d.queue && r.navigations == d.navigations
  {
    if !d.listening then d
    else if IntentIsValid(d.store, now) then
      var dir := d.store.direction.value;
      var started := d.(store := EmptyStore, rootVars := d.rootVars - InitialVars,
                        main := d.main.(classes := d.main.classes + {PageTransitioning}));
      if dir == ToCaseStudy then
        started.(main := started.main.(classes := started.main.classes + {SlideInFromRight}),
                 timers := started.timers + [EntranceEnd(SlideInFromRight)])
      else if dir == ToHome then
        started.(main := started.main.(classes := started.main.classes + {SlideInFromLeft}),
                 timers := started.timers + [EntranceEnd(SlideInFromLeft)])
      else started
    else
      EnsurePageVisible(d).(store := EmptyStore)
  }

  /** A fresh document: `DOMContentLoaded` runs `initPageTransitions`, then `handlePageEntrance`. */
  function LoadDocument(store: Store, reducedMotion: bool, now: int, main: Main, rootVars: set<string>): Doc {
    HandlePageEntrance(InitPageTransitions(store, reducedMotion, now, main, rootVars), now)
  }

  /**
   The entrance decision for a fresh document: with reduced motion off, the entrance runs
   exactly when the direction is present and non-empty, the custom-navigation flag is
   "true", and the timestamp is absent or at most 2000 ms old. The stale clean-up that
   runs first never changes that decision. `to-case-study` slides in from the right,
   `to-home` from the left; every path empties the store. With reduced motion on, the
   store is untouched and the page is left as it was.
   */
  lemma EntranceDecision(store: Store, reducedMotion: bool, now: int, main: Main, rootVars: set<string>)
    ensures var r := LoadDocument(store, reducedMotion, now, main, rootVars);
            && (!reducedMotion ==>
                  && r.store == EmptyStore
                  && (PageTransitioning in r.main.classes <==>
                        && store.direction.Some? && store.direction.value != ""
                        && store.customNavigation == Some("true")
                        && (store.timestamp.None? || now - store.timestamp.value <= 2000))
                  && (PageTransitioning in r.main.classes && store.direction == Some("to-case-study") ==>
                        r.main == main.(classes := main.classes + {PageTransitioning, SlideInFromRight})
                        && r.timers == [EntranceEnd(SlideInFromRight)])
                  && (PageTransitioning in r.main.classes && store.direction == Some("to-home") ==>
                        r.main == main.(classes := main.classes + {PageTransitioning, SlideInFromLeft})
                        && r.timers == [EntranceEnd(SlideInFromLeft)])
                  && (PageTransitioning !in r.main.classes ==> Visible(r.main)))
            && (reducedMotion ==> r.store == store && r.main == main && r.timers == [])
  {
    var d := InitPageTransitions(store, reducedMotion, now, main, rootVars);
    if !reducedMotion {
      assert IntentIsValid(d.store, now) <==> IntentIsValid(store, now);
    }
  }

  /**
   The entrance with a valid intent whose direction is neither known word leaves
   `page-transitioning` on `<main>` with no slide-in class and no timer, so no tick can
   remove it; only a later failsafe does, such as the `load` event's.
   */
  lemma UnknownDirectionKeepsPageTransitioning(store: Store, now: int, main: Main, rootVars: set<string>, k: nat)
    requires IntentIsValid(store, now)
    requires store.direction.value !in {ToCaseStudy, ToHome}
    requires main.classes !! TransitionClasses
    ensures var r := LoadDocument(store, false, now, main, rootVars);
            && PageTransitioning in r.main.classes
            && r.main.classes * TransitionClasses == {PageTransitioning}
            && r.timers == []
            && Tick(r, k, now) == r
            && Visible(OnLoad(r).main)
  {
    var d := InitPageTransitions(store, false, now, main, rootVars);
    assert d.store == store;
    var r := LoadDocument(store, false, now, main, rootVars);
    assert r.main.classes == main.classes + {PageTransitioning};
  }

  /** After any entrance, the `load` event finds no custom-navigation flag and forces the page
      visible, cutting short an entrance animation that is still running. */
  lemma LoadAfterEntranceForcesVisible(store: Store, now: int, main: Main, rootVars: set<string>)
    ensures Visible(OnLoad(LoadDocument(store, false, now, main, rootVars)).main)
  {
  }
}

=== FILE: wrappers.dfy ===
/** Optional values: a DOM query that may find nothing, a store key that may be absent. */
module Wrappers {

  datatype Option<+T> = None | Some(value: T) {

    /** The wrapped value, or `default` when there is none. */
    function GetOr(default: T): T {
      match this
      case Some(v) => v
      case None => default
    }
  }
}
